=== FILE: README.md ===
# maze_w25 core, modelled in Dafny

A model of the game logic of `maze_w25`, a terminal maze game. The player
walks a grid of Floor, Wall and Exit tiles while trolls wander the maze and
charge when they see the player. The model covers four parts:

- the shortest-path search `pathfind` (src/pathfind.rs), which finds the way
  to the nearest Exit;
- one tick of a troll, `Troll::update` (src/troll.rs);
- the maze's value operations (src/maze.rs): bounds, indexing, `new`,
  `add_troll`, and the character decoding of `from_file`;
- the small value types they rest on: `Posn`, `Direction`, `Grid<T>` and
  `Tile`.

Modules and the source files they model:

| module | file | source |
|---|---|---|
| `Wrappers` | wrappers.dfy | `Option` / `Result` |
| `Posns` | posn.dfy | src/posn.rs |
| `Directions` | direction.dfy | src/direction.rs |
| `Tiles` | tile.dfy | src/tile.rs |
| `Grids` | grid.dfy | src/grid.rs |
| `Trolls` | troll.dfy | the `Troll` and `State` records of src/troll.rs |
| `Mazes` | maze.dfy | src/maze.rs |
| `TrollMoves` | troll_update.dfy | `Troll::update` of src/troll.rs |
| `Pathfinding` | pathfind.dfy | src/pathfind.rs |

How the search is modelled:

- The search loop is a `method`. Each turn of the loop is a pure function
  `Advance` over a `Search` value that holds the node grid, the heap and the
  exit found.
- The `BinaryHeap` is a sequence. `pop` may return any entry that no other
  entry beats under the reversed `Ord` (`IsTop`), so every tie-break the real
  heap could make is covered.
- The loop ends because each cell is settled at most once. Its measure is
  the number of unsettled cells, then the heap's length.
- The invariants are `Inv` and `ExitOk`. Settled costs never exceed frontier
  costs. Every settled cell points back at a cell settled one step cheaper.
  Every open neighbour of a settled cell is settled or waiting in the heap
  at most one step dearer.
- From these invariants, the loop proves the result is a shortest route to
  an Exit. It also proves the result is empty exactly when the start is an
  Exit or no Exit can be reached.

## Model

| member | source | states |
|---|---|---|
| Posns.AddPairIsAdd | src/posn.rs:8-26 | adding a raw `(row, col)` pair gives the same position as adding the `Posn` built from it, componentwise |
| Posns.AddIsCommutativeMonoid | src/posn.rs:10-15 | position addition is commutative and associative, and `(0, 0)` is its identity on both sides |
| Posns.AddExamples | src/posn.rs:27-37 | the unit test's sums: (1,1)+(-1,0)=(0,1), (0,1)+(1,-1)=(1,0), (0,1)+(1,1)=(1,2) |
| Directions.AllDirections | src/direction.rs:3-8 | there are exactly four directions, and the list the search iterates names each exactly once |
| Directions.OffsetIsUnit | src/direction.rs:13-20 | every direction's offset has Manhattan length 1 |
| Directions.OffsetsOppose | src/direction.rs:15-18 | North's offset is the negation of South's, and East's of West's |
| Directions.OffsetsDistinct | src/direction.rs:13-20 | different directions have different offsets |
| Directions.Flip | src/pathfind.rs:99 | the flipped direction's offset is the negated offset (assumed meaning, see Left out) |
| Directions.StepIsAdjacent | src/pathfind.rs:90 | `pos + dir.numeric()` is a 4-neighbour of `pos`, and stepping back along the flipped direction returns to `pos` |
| Directions.AdjacentHasDirection | src/direction.rs:13-20 | every 4-neighbour of a cell is one `numeric()` step away in some direction |
| Tiles.GlyphTable | src/tile.rs:16-22 | Floor is drawn ' ', Wall '#' and Exit 'X', and no other glyph occurs |
| Tiles.DisplayMatchesColoured | src/tile.rs:26-35 | Tile's own `Display` draws the same glyph as `coloured`; only Floor's colour differs |
| Tiles.DecodeGlyph | src/maze.rs:98-103 | the loader's table maps each tile's glyph back to the tile, and maps a character to a tile only if it is that tile's glyph |
| Tiles.GlyphInjective | src/tile.rs:16-22 | distinct tiles have distinct glyphs |
| Grids.New | src/grid.rs:6-8 | the new grid has exactly the cells of the given rows, and reading cell p gives `v[row][col]` |
| Grids.Set | src/grid.rs:20-25 | writing x at p keeps the grid's shape, p then reads x, and every other cell keeps its value |
| Grids.ReadAfterWrite | src/grid.rs:13-25 | reading p after writing x there gives x, and writing back what p holds leaves the grid equal to before |
| Trolls.New | src/troll.rs:41-47 | a new troll is alive, wandering and faces the given direction |
| Mazes.InBoundsIsCell | src/maze.rs:123-126 | in a rectangular map, and in the empty map, `in_bounds(p)` holds exactly when p names a cell that indexing can reach; on the empty map it holds of no position |
| Mazes.EmptyFileHasNoCells | src/maze.rs:86-107 | an empty file loads, without `new`'s checks, as the empty map with no trolls, and `in_bounds` is false at every position of it |
| Mazes.InBoundsExamples | src/maze.rs:129-140 | on a 2 x 4 maze, (0,0), (1,0) and (1,3) are in bounds; (10,10), (2,0) and (1,10) are not |
| Mazes.SetTile | src/maze.rs:38-42 | writing a tile at p changes only p: shape, trolls and every other tile are kept, and p reads the new tile |
| Mazes.AddTroll | src/maze.rs:110-112 | afterwards the troll stands at `pos`, replacing any earlier one; the keys gain `pos`, and other trolls and the tiles are unchanged |
| Mazes.New | src/maze.rs:114-121 | succeeds exactly when there is a row and the first row is non-empty; the maze keeps the rows and has no trolls; no rows at all is `EmptyMap` |
| Mazes.NewHasOrigin | src/maze.rs:114-126 | `new` succeeds exactly when the cell (0, 0) is in bounds of the map it is given |
| Mazes.DecodeRow | src/maze.rs:96-104 | a line body decodes exactly when every character is '#', ' ' or 'X'; then tile i decodes character i; otherwise the error names the first bad character |
| Mazes.DecodeRows | src/maze.rs:90-106 | for the corrected loader: the line bodies decode exactly when each does, into one row per line in input order |
| Mazes.DecodeLine | src/maze.rs:96-104 | one turn of the loop as written: the line's last byte is cut off; it succeeds exactly when the last character takes one byte and every other character decodes, giving one tile per character but the last; a multi-byte last character is a `SplitChar` error |
| Mazes.DecodeLines | src/maze.rs:90-107 | the loop of `from_file` as written: succeeds exactly when every line does, with one row per line in input order; otherwise the error is that of the first line that fails |
| Mazes.DecodeTerminatedRow | src/maze.rs:96-104 | a row's glyphs followed by a newline come through one turn of the loop as the same row |
| Mazes.DecodeUnterminatedRow | src/maze.rs:96-104 | a non-empty row's glyphs without a newline come through one turn of the loop less their last tile |
| Mazes.FromLines | src/maze.rs:96-105 | the loop with only the newline removed: one row per line, decoded from the line without its newline, and no trolls |
| Mazes.DecodeEncodeRow | src/maze.rs:98-103 | the glyphs of a row of tiles decode back to that row |
| Mazes.DecodeEncodedLines | src/maze.rs:90-106 | a map written one newline-terminated line per row goes through the decoding loop unchanged |
| Mazes.LoadEncodedLines | src/maze.rs:90-107 | the same file loads, with newlines removed, as the same map with no trolls |
| Mazes.LastLineLosesGlyph | src/maze.rs:96 | the one-line file "#X" (a Wall then an Exit, no newline) decodes as a single Wall, while the corrected loader keeps both tiles |
| Mazes.SplitLastCharFails | src/maze.rs:96 | the one-line file "#é" with no newline fails with `SplitChar('é')`: cutting its last byte would split the two-byte character |
| Mazes.UnterminatedLastLineShrinks | src/maze.rs:92-96 | whenever the last line has no newline, the decoding loop returns its row one tile short and every other row intact |
| Mazes.LoadUnterminatedLines | src/maze.rs:96-105 | with only newlines removed, a map whose last line is unterminated loads back tile for tile |
| TrollMoves.ProbeState | src/troll.rs:82-97 | the probe ends in Charging or Wandering, never Stunned, and in Charging exactly when the player is on the ray ahead, on the map, with only Floor cells between |
| TrollMoves.Update | src/troll.rs:56-130 | one tick keeps `alive`, moves at most one step along the troll's heading, reports a capture only on the player's cell with the troll unchanged, and requests a push only at the cell ahead in its heading |
| TrollMoves.SeesOneStep | src/troll.rs:84-96 | the player is in sight from p exactly when the next cell is the player, or is an in-bounds Floor cell from which the player is in sight |
| TrollMoves.ProbeSees | src/troll.rs:82-97 | the probe loop finds the player exactly when the player is on the ray ahead, on the map, with only Floor cells between |
| TrollMoves.DeadTrollIsInert | src/troll.rs:62-64 | a dead troll returns its own position, no capture, and is left completely unchanged |
| TrollMoves.StunnedCountsDown | src/troll.rs:119-126 | a stunned troll stays put; `Stunned(1)` becomes Wandering and `Stunned(n)` with n > 1 becomes `Stunned(n-1)` |
| TrollMoves.ChargeCatchesPlayer | src/troll.rs:100-106 | a charge onto the player's cell returns that cell and a capture, before the state is touched |
| TrollMoves.ChargeOutcomes | src/troll.rs:107-117 | charging onto Floor moves one step and keeps Charging; into a Wall stays, becomes `Stunned(3)` and requests a push there; into an Exit stays and becomes Wandering |
| TrollMoves.WanderTurns | src/troll.rs:79-81 | a wandering troll that draws a different heading only turns to face it |
| TrollMoves.WanderSteps | src/troll.rs:68-78 | drawing its own heading, it catches a player ahead, else moves exactly when the cell ahead is Floor |
| TrollMoves.WanderChargesIffSees | src/troll.rs:82-97 | without a capture, a wandering troll ends the tick Charging exactly when the player is in sight ahead of its new position, otherwise Wandering |
| Pathfinding.TopIsCheapest | src/pathfind.rs:40-44 | under the reversed order the heap's top entries are exactly the entries of minimum cost |
| Pathfinding.TopExists | src/pathfind.rs:67 | a non-empty heap always has an entry `pop` can return |
| Pathfinding.RemoveAt | src/pathfind.rs:67 | popping takes exactly one occurrence of the popped entry out of the heap (as multisets); every other entry stays and nothing is added |
| Pathfinding.Pushes | src/pathfind.rs:89-101 | the pushed entries cost one more, lie on the map off Walls and point back at the settled cell, and every non-Wall neighbour gets one |
| Pathfinding.PoppedIsAdvanceable | src/pathfind.rs:69 | every popped position is on the map, so the bounds assertion never fails |
| Pathfinding.PopsNeverDecrease | src/pathfind.rs:67-101 | after a turn, every entry left in the heap costs at least as much as the entry just popped |
| Pathfinding.RouteSettles | src/pathfind.rs:67-101 | while the frontier costs at least `bound`, the first cells of any route are already settled, each at most its distance from the start |
| Pathfinding.NeighbourSettles | src/pathfind.rs:89-101 | an open neighbour of a settled cell is settled at most one dearer once the frontier is beyond that |
| Pathfinding.NoShortRoute | src/pathfind.rs:67-101 | while no exit has been popped, no route is shorter than the cheapest frontier cost |
| Pathfinding.ExitPopped | src/pathfind.rs:70-75 | popping an Exit stops the search with that exit; it records the `from` pointer but no cost, and its cost is at most any route's length |
| Pathfinding.MarkKeepsNodes | src/pathfind.rs:72 | setting an Exit node's `from` keeps every settled node well formed and settles nothing |
| Pathfinding.TopBeatsRoutes | src/pathfind.rs:67-75 | the cheapest frontier entry's cost is at most the length of every route |
| Pathfinding.StalePopped | src/pathfind.rs:77-85 | an entry no cheaper than its cell's recorded cost is discarded and the node grid is unchanged |
| Pathfinding.SettleFrame | src/pathfind.rs:86-87 | settling a cell records its cost and `from` and changes no other settled cell |
| Pathfinding.SettleKeepsNodes | src/pathfind.rs:86-87 | settling a popped cell keeps every node pointing back at a cell settled one step cheaper |
| Pathfinding.SettleKeepsEntries | src/pathfind.rs:89-101 | after settling, the remaining and the newly pushed entries are all well formed |
| Pathfinding.SettleKeepsFloor | src/pathfind.rs:86-101 | after settling the cheapest entry's cell, no settled cost exceeds any frontier cost |
| Pathfinding.SettleKeepsClosed | src/pathfind.rs:86-101 | after settling and pushing, every open neighbour of a settled cell is covered at most one step dearer |
| Pathfinding.FreshPopped | src/pathfind.rs:77-101 | a cost is recorded only for a cell with none yet, so a recorded cost is never overwritten; the invariant holds and one fewer cell is unsettled |
| Pathfinding.SettleShrinks | src/pathfind.rs:86 | settling a cell keeps the grid's shape and leaves one fewer unsettled cell |
| Pathfinding.InitialNodes | src/pathfind.rs:48-55 | the initial node grid has one `Node::new()` (no cost, North) per cell of the maze |
| Pathfinding.BackStep | src/pathfind.rs:114-116 | one step along `from` reaches an in-bounds, non-Exit neighbour settled one step cheaper; it is the start exactly at cost 0 |
| Pathfinding.TrailGrows | src/pathfind.rs:111-117 | pushing the current cell keeps the collected trail a chain of adjacent non-start, non-Wall cells, with only the exit an Exit |
| Pathfinding.ReversedChain | src/pathfind.rs:118 | reversing a chain of adjacent cells gives a chain of adjacent cells |
| Pathfinding.TrailReversed | src/pathfind.rs:108-119 | the reversed trail is a route from the start ending on the exit, without the start, with no Exit before its end |
| Pathfinding.Reconstruct | src/pathfind.rs:108-119 | the back-pointer walk reaches the start; the path's length is the exit's cost; it is empty exactly when the exit is the start, and otherwise a route ending on the exit |
| Pathfinding.Pathfind | src/pathfind.rs:47-120 | the result is a route from the start to an Exit no longer than any other; it excludes the start, has no Exit before its end, and is empty exactly when the start is an Exit or no Exit is reachable |

## Left out

- File opening and reading in `from_file` (src/maze.rs:83-95): the loader is modelled over the list of lines `read_line` returns. Each line is non-empty and keeps its newline when it has one.
- Rendering: `Maze`'s `Display`, `redraw_tile`, the troll's `Display`, `Into` and `coloured`, and the ANSI escape output. Tile colours appear only as a three-value `Colour` tag.
- Randomness: the heading drawn by `rng.gen()` is a parameter of `TrollMoves.Update`. `Troll`'s `Rand` implementation is not modelled.
- `Maze::push`: its definition is not part of this model. A charge into a Wall returns a `PushRequest` and claims nothing about the tiles.
- Directions.Flip: `flip` is not defined in the modelled files. It is defined here as the opposite direction, and its contract is an assumption, not a source fact.
- `Direction::unicode` and the maze generator are not part of this model.
- Logging (`trace!`, `warn!`), the order in which the caller updates trolls, and the commented-out `shortest_path` (src/pathfind.rs:122-155).
- TrollMoves.Update: requires a rectangular map and that the step it attempts stays on the map. The program panics off the map, and with ragged rows it may index past a row's end.
- TrollMoves.StunnedCountsDown: does not model the 32-bit counter. `Stunned(n)` with n ≤ 0 counts down without bound here, where the program's `i32` would eventually overflow: a panic in a debug build, a wrap in a release build. The program only ever creates `Stunned(3)` (src/troll.rs:114), so n ≤ 0 never arises.
- Mazes.InBoundsIsCell: a map whose rows differ in width is excluded. There `in_bounds` consults only row 0's width, so it can hold of a position past a shorter row's end, and the program promises nothing for such maps.
- Pathfinding.Pathfind: requires `Searchable`. The map must be rectangular and the start on it. Every cell the search may expand (the start, or a non-Wall non-Exit cell) must have all four neighbours on the map. The program indexes neighbours unchecked: the comment at src/pathfind.rs:91 says the Wall test "also handles out of bounds", but indexing off the map panics.
- Pathfinding.Pathfind: costs are unbounded integers; the `i32` overflow of `cost + 1` is not modelled.
- Posns.AddIsCommutativeMonoid: coordinates are unbounded `int`, where src/posn.rs:4-5 has `i32`. The overflow of both `+` impls (src/posn.rs:12-13, 22-23) is not modelled: it panics in a debug build and wraps in a release build. So for the program, associativity holds only where no partial sum overflows. The core only ever steps one cell from a cell on the map, which stays within `i32` for any map narrower and shorter than `i32::MAX` cells.
- Mazes.InBoundsIsCell: the `len() as i32` casts of `in_bounds` (src/maze.rs:124-125) are not modelled; the lengths are compared as unbounded integers.
- Pathfinding.Pathfind: the heap's own tie-breaking is not modelled. Any minimum-cost entry may be popped, so the contract holds whichever one the real heap returns. The path is therefore "a shortest route", not one particular route.
- Mazes.New: returns `Err(EmptyMap)` or `Err(EmptyFirstRow)` where the program's assertions panic.
- Mazes.DecodeLines: the program panics on a bad character, and on a last line whose final character takes more than one byte (the byte cut splits it). The model returns `Err(BadChar(c))` or `Err(SplitChar(c))` for the first line that fails.

## Findings

| source | as written | input that shows it | evidently intended | confidence | as-written member | corrected member |
|---|---|---|---|---|---|---|
| src/maze.rs:96 | every line has its last byte cut off (`line[..size - 1]`, with `size` counted in bytes), which drops a real glyph when the file's last line has no newline | a file "#X" with no trailing newline loads as the single-tile map `[[Wall]]` and loses the Exit | strip only a trailing newline, so the last line loads as `[[Wall, Exit]]` | not executed | Mazes.LastLineLosesGlyph | Mazes.LoadUnterminatedLines |

=== FILE: direction.dfy ===
/** The four compass directions and their unit offsets (src/direction.rs). */
module Directions {
  import opened Posns

  datatype Direction = North | East | South | West

  /** The directions in the order the path search tries them. */
  const All: seq<Direction> := [North, East, South, West]

  /** `numeric`: the (row, col) offset of one step in `d`. */
  function Numeric(d: Direction): (int, int) {
    match d
    case North => (-1, 0)
    case South => (1, 0)
    case East => (0, 1)
    case West => (0, -1)
  }

  /**
   * The opposite direction. The program calls `flip` but its definition is not
   * part of this model; this is the assumed meaning: the offset is negated.
   */
  function Flip(d: Direction): (r: Direction)
    ensures Numeric(r).0 == -Numeric(d).0 && Numeric(r).1 == -Numeric(d).1
  {
    match d
    case North => South
    case South => North
    case East => West
    case West => East
  }

  /** The cell one step from `p` in direction `d`. */
  function Step(p: Posn, d: Direction): Posn {
    AddPair(p, Numeric(d))
  }

  function Abs(x: int): nat {
    if x < 0 then -x else x
  }

  /** `a` and `b` are 4-neighbours: exactly one unit step apart. */
  predicate Adjacent(a: Posn, b: Posn) {
    Abs(a.row - b.row) + Abs(a.col - b.col) == 1
  }

  /** There are exactly four directions, and `All` lists each once. */
  lemma AllDirections()
    ensures |All| == 4
    ensures forall d: Direction :: d in All
    ensures forall i, j :: 0 <= i < j < |All| ==> All[i] != All[j]
  {
    forall d: Direction ensures d in All {
      match d
      case North => assert All[0] == d;
      case East => assert All[1] == d;
      case South => assert All[2] == d;
      case West => assert All[3] == d;
    }
  }

  /** Every offset is a unit step: its Manhattan length is 1. */
  lemma OffsetIsUnit(d: Direction)
    ensures Abs(Numeric(d).0) + Abs(Numeric(d).1) == 1
  {
  }

  /** North and South are opposite offsets, and so are East and West. */
  lemma OffsetsOppose()
    ensures Numeric(North).0 == -Numeric(South).0 && Numeric(North).1 == -Numeric(South).1
    ensures Numeric(East).0 == -Numeric(West).0 && Numeric(East).1 == -Numeric(West).1
  {
  }

  /** Different directions have different offsets. */
  lemma OffsetsDistinct(d: Direction, e: Direction)
    ensures d != e ==> Numeric(d) != Numeric(e)
  {
  }

  /** One step in any direction reaches a 4-neighbour, and stepping back in the flipped direction returns. */
  lemma StepIsAdjacent(p: Posn, d: Direction)
    ensures Adjacent(p, Step(p, d)) && Adjacent(Step(p, d), p)
    ensures Step(Step(p, d), Flip(d)) == p
  {
  }

  /** Conversely, every 4-neighbour of `a` is one step away in some direction. */
  lemma AdjacentHasDirection(a: Posn, b: Posn)
    requires Adjacent(a, b)
    ensures exists d: Direction :: b == Step(a, d)
  {
    if b.row < a.row {
      assert b == Step(a, North);
    } else if b.row > a.row {
      assert b == Step(a, South);
    } else if b.col > a.col {
      assert b == Step(a, East);
    } else {
      assert b == Step(a, West);
    }
  }
}

=== FILE: grid.dfy ===
/** A rectangular store of values addressed by position (src/grid.rs). */
module Grids {
  import opened Posns

  /** `Grid<T>` wraps a vector of rows. */
  datatype Grid<T> = Grid(cells: seq<seq<T>>)

  /**
   * `p` names an existing cell of `cells`. Indexing asserts a non-negative row
   * and column and then panics on any index past the end of its vector.
   */
  predicate Contains<T>(cells: seq<seq<T>>, p: Posn) {
    0 <= p.row < |cells| && 0 <= p.col < |cells[p.row]|
  }

  /** The value stored at `p`. */
  function Lookup<T>(cells: seq<seq<T>>, p: Posn): T
    requires Contains(cells, p)
  {
    cells[p.row][p.col]
  }

  /** `cells` with the value at `p` replaced by `x`. */
  function Store<T>(cells: seq<seq<T>>, p: Posn, x: T): (r: seq<seq<T>>)
    requires Contains(cells, p)
    ensures |r| == |cells| && forall i :: 0 <= i < |cells| ==> |r[i]| == |cells[i]|
    ensures Lookup(r, p) == x
    ensures forall q :: Contains(cells, q) && q != p ==> Lookup(r, q) == Lookup(cells, q)
  {
    cells[p.row := cells[p.row][p.col := x]]
  }

  /** `Grid::new`. */
  function New<T>(v: seq<seq<T>>): (g: Grid<T>)
    ensures forall p :: Contains(v, p) <==> Contains(g.cells, p)
    ensures forall p :: Contains(v, p) ==> Get(g, p) == v[p.row][p.col]
  {
    Grid(v)
  }

  /** `Index<Posn>`: read the cell at `p`. */
  function Get<T>(g: Grid<T>, p: Posn): T
    requires Contains(g.cells, p)
  {
    Lookup(g.cells, p)
  }

  /** `IndexMut<Posn>`: the grid after writing `x` at `p`; every other cell keeps its value. */
  function Set<T>(g: Grid<T>, p: Posn, x: T): (r: Grid<T>)
    requires Contains(g.cells, p)
    ensures forall q :: Contains(r.cells, q) <==> Contains(g.cells, q)
    ensures Get(r, p) == x
    ensures forall q :: Contains(g.cells, q) && q != p ==> Get(r, q) == Get(g, q)
  {
    Grid(Store(g.cells, p, x))
  }

  /** Reading a cell right after writing it yields the written value; writing what is already there changes nothing. */
  lemma ReadAfterWrite<T>(g: Grid<T>, p: Posn, x: T)
    requires Contains(g.cells, p)
    ensures Get(Set(g, p, x), p) == x
    ensures Set(g, p, Get(g, p)) == g
  {
    assert g.cells[p.row][p.col := g.cells[p.row][p.col]] == g.cells[p.row];
    assert g.cells[p.row := g.cells[p.row]] == g.cells;
  }
}

=== FILE: maze.dfy ===
/** The maze: a tile map plus the trolls standing on it (src/maze.rs). */
module Mazes {
  import opened Wrappers
  import opened Posns
  import opened Tiles
  import opened Grids
  import opened Trolls

  /** At most one troll per position: the troll set is keyed by position. */
  datatype Maze = Maze(tiles: seq<seq<Tile>>, trolls: map<Posn, Troll>)

  /** Why a maze could not be built or loaded. */
  datatype MazeError = EmptyMap | EmptyFirstRow | BadChar(c: char) | SplitChar(c: char)

  /**
   * `in_bounds`: the row is within the map and the column within the width of row 0.
   * On an empty map the row test fails first, so row 0 is never read.
   */
  predicate InBounds(m: Maze, p: Posn) {
    0 <= p.row < |m.tiles| && 0 <= p.col < |m.tiles[0]|
  }

  /** Every row is as wide as row 0 (the program assumes this but does not check it). */
  predicate Rectangular(m: Maze) {
    |m.tiles| > 0 && forall i :: 0 <= i < |m.tiles| ==> |m.tiles[i]| == |m.tiles[0]|
  }

  /**
   * In a rectangular maze, and in the empty map an empty file loads as,
   * `in_bounds` holds exactly of the cells that indexing can reach.
   */
  lemma InBoundsIsCell(m: Maze, p: Posn)
    requires |m.tiles| == 0 || Rectangular(m)
    ensures InBounds(m, p) <==> Contains(m.tiles, p)
    ensures |m.tiles| == 0 ==> !InBounds(m, p)
  {
  }

  /** The bounds checks of the source's unit test, on a 2 x 4 maze. */
  lemma InBoundsExamples(m: Maze)
    requires m.tiles == [[Floor, Floor, Floor, Floor], [Floor, Floor, Floor, Floor]]
    ensures InBounds(m, Posn(0, 0)) && InBounds(m, Posn(1, 0)) && InBounds(m, Posn(1, 3))
    ensures !InBounds(m, Posn(10, 10)) && !InBounds(m, Posn(2, 0)) && !InBounds(m, Posn(1, 10))
  {
  }

  /** `Index<&Posn>`: the tile at `p`. */
  function TileAt(m: Maze, p: Posn): Tile
    requires Contains(m.tiles, p)
  {
    Lookup(m.tiles, p)
  }

  /** `IndexMut<&Posn>`: the maze after writing `t` at `p`. */
  function SetTile(m: Maze, p: Posn, t: Tile): (r: Maze)
    requires Contains(m.tiles, p)
    ensures r.trolls == m.trolls
    ensures forall q :: Contains(r.tiles, q) <==> Contains(m.tiles, q)
    ensures TileAt(r, p) == t
    ensures forall q :: Contains(m.tiles, q) && q != p ==> TileAt(r, q) == TileAt(m, q)
  {
    m.(tiles := Store(m.tiles, p, t))
  }

  /** `add_troll`: `t` now stands at `pos`, replacing any previous occupant; nothing else changes. */
  function AddTroll(m: Maze, pos: Posn, t: Troll): (r: Maze)
    ensures r.tiles == m.tiles
    ensures r.trolls.Keys == m.trolls.Keys + {pos}
    ensures pos in r.trolls && r.trolls[pos] == t
    ensures forall q :: q in m.trolls && q != pos ==> r.trolls[q] == m.trolls[q]
  {
    m.(trolls := m.trolls[pos := t])
  }

  /** `Maze::new`: refuses an empty map or an empty first row; a new maze has no trolls. */
  function New(tiles: seq<seq<Tile>>): (r: Result<Maze, MazeError>)
    ensures r.Ok? <==> |tiles| > 0 && |tiles[0]| > 0
    ensures r.Ok? ==> r.value.tiles == tiles && r.value.trolls == map[]
    ensures |tiles| == 0 ==> r == Err(EmptyMap)
  {
    if |tiles| == 0 then Err(EmptyMap)
    else if |tiles[0]| == 0 then Err(EmptyFirstRow)
    else Ok(Maze(tiles, map[]))
  }

  /** `new`'s two checks are exactly what puts the origin cell (0, 0) on the map. */
  lemma NewHasOrigin(tiles: seq<seq<Tile>>)
    ensures New(tiles).Ok? <==> |tiles| > 0 && InBounds(Maze(tiles, map[]), Posn(0, 0))
    ensures New(tiles).Ok? ==> InBounds(New(tiles).value, Posn(0, 0))
  {
  }

  /** The glyphs of a row of tiles. */
  function EncodeRow(row: seq<Tile>): (s: string)
    ensures |s| == |row| && forall i :: 0 <= i < |row| ==> s[i] == Glyph(row[i])
  {
    if row == [] then [] else [Glyph(row[0])] + EncodeRow(row[1..])
  }

  /** A maze map as the lines of a file, each terminated by a newline. */
  function EncodeLines(rows: seq<seq<Tile>>): (lines: seq<string>)
    ensures |lines| == |rows|
    ensures forall i :: 0 <= i < |rows| ==> lines[i] == EncodeRow(rows[i]) + "\n"
  {
    seq(|rows|, i requires 0 <= i < |rows| => EncodeRow(rows[i]) + "\n")
  }

  /** Decodes the characters of one line body; the first character outside the table is reported. */
  function DecodeRow(s: string): (r: Result<seq<Tile>, MazeError>)
    ensures r.Ok? <==> forall i :: 0 <= i < |s| ==> Decode(s[i]).Some?
    ensures r.Ok? ==> |r.value| == |s| && forall i :: 0 <= i < |s| ==> Decode(s[i]) == Some(r.value[i])
    ensures r.Err? ==> exists k :: 0 <= k < |s| && Decode(s[k]).None? && r.error == BadChar(s[k]) &&
                                   forall i :: 0 <= i < k ==> Decode(s[i]).Some?
  {
    if s == [] then Ok([])
    else
      match Decode(s[0])
      case None => Err(BadChar(s[0]))
      case Some(t) =>
        match DecodeRow(s[1..])
        case Err(e) => Err(e)
        case Ok(rest) => Ok([t] + rest)
  }

  /** Decodes line bodies into rows, in input order; the first bad line's error is reported. */
  function DecodeRows(bodies: seq<string>): (r: Result<seq<seq<Tile>>, MazeError>)
    ensures r.Ok? <==> forall i :: 0 <= i < |bodies| ==> DecodeRow(bodies[i]).Ok?
    ensures r.Ok? ==> |r.value| == |bodies| &&
                      forall i :: 0 <= i < |bodies| ==> DecodeRow(bodies[i]) == Ok(r.value[i])
  {
    if bodies == [] then Ok([])
    else
      match DecodeRow(bodies[0])
      case Err(e) => Err(e)
      case Ok(row) =>
        match DecodeRows(bodies[1..])
        case Err(e) => Err(e)
        case Ok(rest) => Ok([row] + rest)
  }

  /** Every line with its terminating newline, where present, removed. */
  function Bodies(lines: seq<string>): (bodies: seq<string>)
    ensures |bodies| == |lines| && forall i :: 0 <= i < |lines| ==> bodies[i] == LineBody(lines[i])
  {
    seq(|lines|, i requires 0 <= i < |lines| => LineBody(lines[i]))
  }

  /** A character that UTF-8 stores in a single byte. */
  predicate OneByte(c: char) {
    c as int < 0x80
  }

  /**
   * One turn of the decoding loop of `from_file`: the line's last byte is cut
   * off (`read_line` counts bytes) and the rest is decoded. The cut lands inside
   * a character, and the program panics, unless the last character takes one byte.
   */
  function DecodeLine(line: string): (r: Result<seq<Tile>, MazeError>)
    requires |line| > 0
    ensures r.Ok? <==> OneByte(line[|line| - 1]) && forall j :: 0 <= j < |line| - 1 ==> Decode(line[j]).Some?
    ensures r.Ok? ==> |r.value| == |line| - 1 && forall j :: 0 <= j < |line| - 1 ==> Decode(line[j]) == Some(r.value[j])
    ensures !OneByte(line[|line| - 1]) ==> r == Err(SplitChar(line[|line| - 1]))
  {
    var last := line[|line| - 1];
    if !OneByte(last) then Err(SplitChar(last)) else DecodeRow(line[..|line| - 1])
  }

  /**
   * The decoding loop of `from_file`, over the lines `read_line` returns (each
   * non-empty, newline included when present), in input order; the first line
   * that fails stops the load.
   */
  function DecodeLines(lines: seq<string>): (r: Result<seq<seq<Tile>>, MazeError>)
    requires forall i :: 0 <= i < |lines| ==> |lines[i]| > 0
    ensures r.Ok? <==> forall i :: 0 <= i < |lines| ==> DecodeLine(lines[i]).Ok?
    ensures r.Ok? ==> |r.value| == |lines| && forall i :: 0 <= i < |lines| ==> DecodeLine(lines[i]) == Ok(r.value[i])
    ensures r.Err? ==> exists k :: 0 <= k < |lines| && DecodeLine(lines[k]) == Err(r.error) &&
                                   forall i :: 0 <= i < k ==> DecodeLine(lines[i]).Ok?
  {
    if lines == [] then Ok([])
    else
      match DecodeLine(lines[0])
      case Err(e) => Err(e)
      case Ok(row) =>
        match DecodeLines(lines[1..])
        case Err(e) => Err(e)
        case Ok(rest) => Ok([row] + rest)
  }

  /** The line without its terminating newline, if it has one. */
  function LineBody(line: string): (body: string)
    ensures line == body + "\n" || line == body
  {
    if |line| > 0 && line[|line| - 1] == '\n' then line[..|line| - 1] else line
  }

  /** `from_file` with only a newline, where present, removed from each line; the maze starts with no trolls. */
  function FromLines(lines: seq<string>): (r: Result<Maze, MazeError>)
    ensures r.Ok? <==> forall i :: 0 <= i < |lines| ==> DecodeRow(LineBody(lines[i])).Ok?
    ensures r.Ok? ==> r.value.trolls == map[] && |r.value.tiles| == |lines| &&
                      forall i :: 0 <= i < |lines| ==> DecodeRow(LineBody(lines[i])) == Ok(r.value.tiles[i])
  {
    match DecodeRows(Bodies(lines))
    case Err(e) => Err(e)
    case Ok(rows) => Ok(Maze(rows, map[]))
  }

  /** An empty file loads, without passing through `new`, as a maze with no cell in bounds. */
  lemma EmptyFileHasNoCells(p: Posn)
    ensures FromLines([]) == Ok(Maze([], map[]))
    ensures DecodeLines([]) == Ok([])
    ensures !InBounds(FromLines([]).value, p)
  {
  }

  /** Decoding a row's glyphs gives the row back. */
  lemma DecodeEncodeRow(row: seq<Tile>)
    ensures DecodeRow(EncodeRow(row)) == Ok(row)
  {
    var s := EncodeRow(row);
    forall i | 0 <= i < |s| ensures Decode(s[i]) == Some(row[i]) {
      DecodeGlyph(row[i], s[i]);
    }
    var v := DecodeRow(s).value;
    assert |v| == |row|;
    forall i | 0 <= i < |row| ensures v[i] == row[i] {
      assert Decode(s[i]) == Some(v[i]);
    }
    assert v == row;
  }

  /** Line bodies that each decode to the matching row decode, together, to those rows. */
  lemma DecodeRowsEach(bodies: seq<string>, rows: seq<seq<Tile>>)
    requires |bodies| == |rows| && forall i :: 0 <= i < |rows| ==> DecodeRow(bodies[i]) == Ok(rows[i])
    ensures DecodeRows(bodies) == Ok(rows)
  {
    var r := DecodeRows(bodies);
    assert r.Ok?;
    assert forall i :: 0 <= i < |rows| ==> r.value[i] == rows[i];
    assert r.value == rows;
  }

  /** Lines that each decode to the matching row decode, together, to those rows. */
  lemma DecodeLinesEach(lines: seq<string>, rows: seq<seq<Tile>>)
    requires forall i :: 0 <= i < |lines| ==> |lines[i]| > 0
    requires |lines| == |rows| && forall i :: 0 <= i < |rows| ==> DecodeLine(lines[i]) == Ok(rows[i])
    ensures DecodeLines(lines) == Ok(rows)
  {
    var r := DecodeLines(lines);
    assert r.Ok?;
    assert forall i :: 0 <= i < |rows| ==> r.value[i] == rows[i];
    assert r.value == rows;
  }

  /** A row's glyphs followed by a newline decode, through one turn of the loop, to the row. */
  lemma DecodeTerminatedRow(row: seq<Tile>)
    ensures DecodeLine(EncodeRow(row) + "\n") == Ok(row)
  {
    var s := EncodeRow(row);
    assert (s + "\n")[|s|] == '\n';
    assert (s + "\n")[..|s|] == s;
    DecodeEncodeRow(row);
  }

  /** A non-empty row's glyphs without a newline decode, through one turn of the loop, to the row less its last tile. */
  lemma DecodeUnterminatedRow(row: seq<Tile>)
    requires |row| > 0
    ensures DecodeLine(EncodeRow(row)) == Ok(row[..|row| - 1])
  {
    var s := EncodeRow(row);
    GlyphTable();
    assert s[|s| - 1] == Glyph(row[|row| - 1]);
    assert s[..|s| - 1] == EncodeRow(row[..|row| - 1]);
    DecodeEncodeRow(row[..|row| - 1]);
  }

  /** A map written out one newline-terminated line per row goes through the decoding loop unchanged. */
  lemma DecodeEncodedLines(rows: seq<seq<Tile>>)
    ensures DecodeLines(EncodeLines(rows)) == Ok(rows)
  {
    var lines := EncodeLines(rows);
    forall i | 0 <= i < |rows| ensures DecodeLine(lines[i]) == Ok(rows[i]) {
      DecodeTerminatedRow(rows[i]);
    }
    DecodeLinesEach(lines, rows);
  }

  /** A map written out one newline-terminated line per row loads back as the same map, with no trolls. */
  lemma LoadEncodedLines(rows: seq<seq<Tile>>)
    ensures FromLines(EncodeLines(rows)) == Ok(Maze(rows, map[]))
  {
    var lines := EncodeLines(rows);
    var bodies := Bodies(lines);
    forall i | 0 <= i < |rows| ensures DecodeRow(bodies[i]) == Ok(rows[i]) {
      assert lines[i] == EncodeRow(rows[i]) + "\n";
      assert bodies[i] == EncodeRow(rows[i]);
      DecodeEncodeRow(rows[i]);
    }
    DecodeRowsEach(bodies, rows);
  }

  /**
   * The decoding loop drops the final glyph of a last line that has no newline:
   * the one-line file "#X" loads as a single Wall.
   */
  lemma LastLineLosesGlyph()
    ensures EncodeRow([Wall, Exit]) == "#X"
    ensures DecodeLines(["#X"]) == Ok([[Wall]])
    ensures FromLines(["#X"]) == Ok(Maze([[Wall, Exit]], map[]))
  {
    var rows := [[Wall, Exit]];
    var s := EncodeRow(rows[0]);
    GlyphTable();
    assert s[0] == '#' && s[1] == 'X';
    assert s == "#X";
    assert rows[..0] == [] && EncodeLines([]) == [];
    assert EncodeLines(rows[..0]) + [EncodeRow(rows[0])] == ["#X"];
    assert rows[0][..1] == [Wall];
    assert rows[..0] + [rows[0][..1]] == [[Wall]];
    UnterminatedLastLineShrinks(rows);
    LoadUnterminatedLines(rows);
  }

  /**
   * A last line ending in a character of more than one byte, with no newline,
   * stops the load: the byte cut would split that character.
   */
  lemma SplitLastCharFails()
    ensures DecodeLines(["#\U{E9}"]) == Err(SplitChar('\U{E9}'))
  {
    var line := "#\U{E9}";
    assert line[|line| - 1] == '\U{E9}';
    assert DecodeLine(line) == Err(SplitChar('\U{E9}'));
    assert [line][0] == line;
  }

  /** Through the decoding loop, a last line without a newline always comes back one tile short. */
  lemma UnterminatedLastLineShrinks(rows: seq<seq<Tile>>)
    requires |rows| > 0 && |rows[|rows| - 1]| > 0
    ensures var n := |rows|;
      var lines := EncodeLines(rows[..n - 1]) + [EncodeRow(rows[n - 1])];
      DecodeLines(lines) == Ok(rows[..n - 1] + [rows[n - 1][..|rows[n - 1]| - 1]])
  {
    var n := |rows|;
    var last := rows[n - 1];
    var lines := EncodeLines(rows[..n - 1]) + [EncodeRow(last)];
    var want := rows[..n - 1] + [last[..|last| - 1]];
    forall i | 0 <= i < n ensures |lines[i]| > 0 && DecodeLine(lines[i]) == Ok(want[i]) {
      if i < n - 1 {
        assert lines[i] == EncodeRow(rows[i]) + "\n";
        DecodeTerminatedRow(rows[i]);
      } else {
        DecodeUnterminatedRow(last);
      }
    }
    DecodeLinesEach(lines, want);
  }

  /** A map whose last line has no newline loads back, glyph for glyph, when only newlines are removed. */
  lemma LoadUnterminatedLines(rows: seq<seq<Tile>>)
    requires |rows| > 0
    ensures FromLines(EncodeLines(rows[..|rows| - 1]) + [EncodeRow(rows[|rows| - 1])]) == Ok(Maze(rows, map[]))
  {
    var n := |rows|;
    var lines := EncodeLines(rows[..n - 1]) + [EncodeRow(rows[n - 1])];
    var bodies := Bodies(lines);
    forall i | 0 <= i < n ensures DecodeRow(bodies[i]) == Ok(rows[i]) {
      if i < n - 1 {
        assert lines[i] == EncodeRow(rows[i]) + "\n";
      } else {
        assert lines[i] == EncodeRow(rows[i]);
        GlyphsAreNotNewline(rows[i]);
      }
      assert bodies[i] == EncodeRow(rows[i]);
      DecodeEncodeRow(rows[i]);
    }
    DecodeRowsEach(bodies, rows);
  }

  /** No tile's glyph is a newline, so an encoded row never ends in one. */
  lemma GlyphsAreNotNewline(row: seq<Tile>)
    ensures LineBody(EncodeRow(row)) == EncodeRow(row)
  {
    if row != [] {
      var s := EncodeRow(row);
      assert s[|s| - 1] == Glyph(row[|row| - 1]);
      GlyphTable();
    }
  }
}

=== FILE: pathfind.dfy ===
/**
 * Uniform-cost search from a start cell to the nearest Exit, and the
 * reconstruction of the route it found (src/pathfind.rs).
 */
module Pathfinding {
  import opened Wrappers
  import opened Posns
  import opened Directions
  import opened Tiles
  import opened Grids
  import opened Mazes

  /** Per-cell search record: the settled cost, if any, and the direction back towards the start. */
  datatype Node = Node(cost: Option<int>, from: Direction)

  /** A frontier entry: `pos` is reached at `cost`, and one step along `from` leads back to the cell that pushed it. */
  datatype HeapEntry = HeapEntry(cost: int, pos: Posn, from: Direction)

  /** The search state: the node grid, the frontier heap, and the exit once one is popped. */
  datatype Search = Search(nodes: Grid<Node>, heap: seq<HeapEntry>, exit: Option<Posn>)

  datatype Ordering = Less | Equal | Greater

  function CompareInts(a: int, b: int): Ordering {
    if a < b then Less else if a == b then Equal else Greater
  }

  /** The heap's `Ord`: compares the other entry's cost with this one's, so a cheaper entry is greater. */
  function Compare(a: HeapEntry, b: HeapEntry): Ordering {
    CompareInts(b.cost, a.cost)
  }

  /** `heap[i]` may be returned by `BinaryHeap::pop`: no entry is greater under `Compare`. */
  predicate IsTop(heap: seq<HeapEntry>, i: int) {
    0 <= i < |heap| && forall j :: 0 <= j < |heap| ==> Compare(heap[i], heap[j]) != Less
  }

  /** Every cost in the heap is at least `b`. */
  predicate HeapFloor(heap: seq<HeapEntry>, b: int) {
    forall e :: e in heap ==> b <= e.cost
  }

  /** Because the order is reversed, what the max-heap pops is an entry of minimum cost. */
  lemma TopIsCheapest(heap: seq<HeapEntry>, i: int)
    ensures IsTop(heap, i) <==> 0 <= i < |heap| && forall j :: 0 <= j < |heap| ==> heap[i].cost <= heap[j].cost
    ensures IsTop(heap, i) ==> HeapFloor(heap, heap[i].cost)
  {
  }

  /** A non-empty heap always has an entry `pop` can return. */
  lemma {:induction false} TopExists(heap: seq<HeapEntry>)
    requires |heap| > 0
    ensures exists i :: IsTop(heap, i)
    decreases |heap|
  {
    if |heap| == 1 {
      assert IsTop(heap, 0);
    } else {
      var front := heap[..|heap| - 1];
      TopExists(front);
      var i :| IsTop(front, i);
      var last := |heap| - 1;
      if heap[last].cost < heap[i].cost {
        forall j | 0 <= j < |heap| ensures heap[last].cost <= heap[j].cost {
          if j < last {
            assert front[j] == heap[j] && Compare(front[i], front[j]) != Less;
          }
        }
        assert IsTop(heap, last);
      } else {
        forall j | 0 <= j < |heap| ensures heap[i].cost <= heap[j].cost {
          if j < last {
            assert front[j] == heap[j] && Compare(front[i], front[j]) != Less;
          }
        }
        assert IsTop(heap, i);
      }
    }
  }

  /** The heap with the entry at `i` taken out. */
  function RemoveAt(heap: seq<HeapEntry>, i: int): (r: seq<HeapEntry>)
    requires 0 <= i < |heap|
    ensures |r| == |heap| - 1
    ensures multiset(r) == multiset(heap) - multiset{heap[i]}
    ensures forall e :: e in r ==> e in heap
    ensures forall e :: e in heap && e != heap[i] ==> e in r
  {
    var r := heap[..i] + heap[i + 1..];
    assert heap == heap[..i] + [heap[i]] + heap[i + 1..];
    assert forall j :: 0 <= j < |heap| && j != i ==> heap[j] == (if j < i then r[j] else r[j - 1]);
    r
  }

  /** Reverses a sequence, as `Vec::reverse`. */
  function Reverse<T>(s: seq<T>): (r: seq<T>)
    ensures |r| == |s| && forall i :: 0 <= i < |s| ==> r[i] == s[|s| - 1 - i]
  {
    seq(|s|, i requires 0 <= i < |s| => s[|s| - 1 - i])
  }

  /** A cell the search may expand from `start`: not an Exit, and not a Wall unless it is the start itself. */
  predicate Expandable(maze: Maze, start: Posn, p: Posn)
    requires Rectangular(maze) && InBounds(maze, p)
  {
    TileAt(maze, p) != Exit && (p == start || TileAt(maze, p) != Wall)
  }

  /**
   * What the search needs of its maze: a rectangular map, a start on it, and all
   * four neighbours of every cell it may expand on the map too (neighbour
   * indexing is unchecked, so a solid Wall border except for exits suffices).
   */
  ghost predicate Searchable(maze: Maze, start: Posn) {
    && Rectangular(maze)
    && InBounds(maze, start)
    && forall p, d :: InBounds(maze, p) && Expandable(maze, start, p) ==> InBounds(maze, Step(p, d))
  }

  /**
   * A route from `start`: a non-empty walk of 4-adjacent in-bounds non-Wall cells
   * beginning next to `start` and ending on an Exit.
   */
  predicate IsRoute(maze: Maze, start: Posn, r: seq<Posn>)
    requires Rectangular(maze)
  {
    && |r| > 0
    && Adjacent(start, r[0])
    && (forall i :: 0 <= i < |r| - 1 ==> Adjacent(r[i], r[i + 1]))
    && (forall i :: 0 <= i < |r| ==> InBounds(maze, r[i]) && TileAt(maze, r[i]) != Wall)
    && TileAt(maze, r[|r| - 1]) == Exit
  }

  /** The node grid has a node for exactly the cells of the maze. */
  ghost predicate Shaped(maze: Maze, nodes: Grid<Node>)
    requires Rectangular(maze)
  {
    forall p :: Contains(nodes.cells, p) <==> InBounds(maze, p)
  }

  predicate Settled(nodes: Grid<Node>, p: Posn) {
    Contains(nodes.cells, p) && Get(nodes, p).cost.Some?
  }

  function CostOf(nodes: Grid<Node>, p: Posn): int
    requires Settled(nodes, p)
  {
    Get(nodes, p).cost.value
  }

  predicate SettledAt(nodes: Grid<Node>, p: Posn, c: int) {
    Settled(nodes, p) && CostOf(nodes, p) == c
  }

  /** The cell the node at `p` points back to. */
  function Back(nodes: Grid<Node>, p: Posn): Posn
    requires Contains(nodes.cells, p)
  {
    Step(p, Get(nodes, p).from)
  }

  /** The cells not yet settled; the search settles each at most once. */
  ghost function Unsettled(nodes: Grid<Node>): set<Posn> {
    set r: int, c: int | 0 <= r < |nodes.cells| && 0 <= c < |nodes.cells[r]| && nodes.cells[r][c].cost.None? :: Posn(r, c)
  }

  /** Membership in `Unsettled`, cell by cell. */
  lemma UnsettledMembers(nodes: Grid<Node>, p: Posn)
    ensures p in Unsettled(nodes) <==> Contains(nodes.cells, p) && Get(nodes, p).cost.None?
  {
    if Contains(nodes.cells, p) && Get(nodes, p).cost.None? {
      assert p == Posn(p.row, p.col);
    }
  }

  /** Writing one node settles or unsettles only that cell. */
  lemma UnsettledAfterSet(nodes: Grid<Node>, p: Posn, x: Node)
    requires Contains(nodes.cells, p)
    ensures x.cost.None? ==> Unsettled(Set(nodes, p, x)) == Unsettled(nodes) + {p}
    ensures x.cost.Some? ==> Unsettled(Set(nodes, p, x)) == Unsettled(nodes) - {p}
  {
    var after := Set(nodes, p, x);
    forall q ensures q in Unsettled(after) <==> (q in Unsettled(nodes) && q != p) || (q == p && x.cost.None?) {
      UnsettledMembers(after, q);
      UnsettledMembers(nodes, q);
    }
  }

  /** The entries pushed when `pos` is settled at `cost`: one per listed direction whose neighbour is not a Wall. */
  function Pushes(maze: Maze, pos: Posn, cost: int, dirs: seq<Direction>): (r: seq<HeapEntry>)
    requires Rectangular(maze)
    requires forall d :: d in dirs ==> InBounds(maze, Step(pos, d))
    ensures forall e :: e in r ==>
      e.cost == cost + 1 && InBounds(maze, e.pos) && TileAt(maze, e.pos) != Wall && Step(e.pos, e.from) == pos
    ensures forall d :: d in dirs ==>
      Contains(maze.tiles, Step(pos, d)) &&
      (TileAt(maze, Step(pos, d)) != Wall ==> HeapEntry(cost + 1, Step(pos, d), Flip(d)) in r)
  {
    if dirs == [] then []
    else
      var next := Step(pos, dirs[0]);
      assert dirs[0] in dirs;
      InBoundsIsCell(maze, next);
      StepIsAdjacent(pos, dirs[0]);
      var here := if TileAt(maze, next) == Wall then [] else [HeapEntry(cost + 1, next, Flip(dirs[0]))];
      here + Pushes(maze, pos, cost, dirs[1..])
  }

  /** The first entry of a search. */
  function Seed(start: Posn): HeapEntry {
    HeapEntry(0, start, North)
  }

  /** One turn of the search loop, given the index `i` of the entry `pop` returned. */
  function Advance(maze: Maze, start: Posn, s: Search, i: int): Search
    requires Searchable(maze, start) && Shaped(maze, s.nodes)
    requires 0 <= i < |s.heap| && InBounds(maze, s.heap[i].pos)
    requires s.heap[i].pos == start || TileAt(maze, s.heap[i].pos) != Wall
  {
    var e := s.heap[i];
    var rest := RemoveAt(s.heap, i);
    var node := Get(s.nodes, e.pos);
    if TileAt(maze, e.pos) == Exit then
      Search(Set(s.nodes, e.pos, node.(from := e.from)), rest, Some(e.pos))
    else if node.cost.Some? && node.cost.value <= e.cost then
      Search(s.nodes, rest, s.exit)
    else
      Search(Set(s.nodes, e.pos, Node(Some(e.cost), e.from)), rest + Pushes(maze, e.pos, e.cost, All), s.exit)
  }

  /** A settled node: never an Exit, cost 0 exactly at the start, otherwise a non-Wall cell pointing back at a cell settled one cheaper. */
  ghost predicate NodeOk(maze: Maze, start: Posn, nodes: Grid<Node>, p: Posn)
    requires Rectangular(maze) && InBounds(maze, p) && Settled(nodes, p)
  {
    var c := CostOf(nodes, p);
    && c >= 0
    && TileAt(maze, p) != Exit
    && (p == start <==> c == 0)
    && (c >= 1 ==> TileAt(maze, p) != Wall && SettledAt(nodes, Back(nodes, p), c - 1))
  }

  ghost predicate NodesOk(maze: Maze, start: Posn, nodes: Grid<Node>)
    requires Rectangular(maze)
  {
    forall p :: InBounds(maze, p) && Settled(nodes, p) ==> NodeOk(maze, start, nodes, p)
  }

  /** A heap entry: in bounds, cost 0 only at the start, otherwise a non-Wall cell pushed by a cell settled one cheaper. */
  ghost predicate EntryOk(maze: Maze, start: Posn, nodes: Grid<Node>, e: HeapEntry)
    requires Rectangular(maze)
  {
    && InBounds(maze, e.pos)
    && e.cost >= 0
    && (e.cost == 0 ==> e.pos == start)
    && (e.cost >= 1 ==> TileAt(maze, e.pos) != Wall && SettledAt(nodes, Step(e.pos, e.from), e.cost - 1))
  }

  /** No settled cost exceeds any frontier cost: popped costs never decrease. */
  ghost predicate BelowHeap(nodes: Grid<Node>, heap: seq<HeapEntry>) {
    forall p :: Settled(nodes, p) ==> HeapFloor(heap, CostOf(nodes, p))
  }

  /** `n` is settled at cost at most `b`, or waits in the heap at cost at most `b`. */
  ghost predicate Covered(nodes: Grid<Node>, heap: seq<HeapEntry>, n: Posn, b: int) {
    (Settled(nodes, n) && CostOf(nodes, n) <= b) || exists e :: e in heap && e.pos == n && e.cost <= b
  }

  /** Every open neighbour of a settled cell is covered at one more than that cell's cost. */
  ghost predicate Closed(maze: Maze, nodes: Grid<Node>, heap: seq<HeapEntry>)
    requires Rectangular(maze)
  {
    forall p, d ::
      Settled(nodes, p) && InBounds(maze, Step(p, d)) && TileAt(maze, Step(p, d)) != Wall ==>
        Covered(nodes, heap, Step(p, d), CostOf(nodes, p) + 1)
  }

  /** The loop invariant of the search. */
  ghost predicate Inv(maze: Maze, start: Posn, s: Search) {
    && Searchable(maze, start)
    && Shaped(maze, s.nodes)
    && NodesOk(maze, start, s.nodes)
    && (s.exit.None? ==>
          && (forall e :: e in s.heap ==> EntryOk(maze, start, s.nodes, e))
          && BelowHeap(s.nodes, s.heap)
          && Closed(maze, s.nodes, s.heap)
          && (SettledAt(s.nodes, start, 0) || s.heap == [Seed(start)]))
  }

  /** What is known once an exit is popped at cost `c`. */
  ghost predicate ExitOk(maze: Maze, start: Posn, s: Search, c: int)
    requires Rectangular(maze) && InBounds(maze, start) && Shaped(maze, s.nodes) && s.exit.Some?
  {
    var x := s.exit.value;
    && InBounds(maze, x)
    && TileAt(maze, x) == Exit
    && c >= 0
    && (x == start ==> c == 0)
    && (x != start ==> c >= 1 && SettledAt(s.nodes, Back(s.nodes, x), c - 1))
    && (TileAt(maze, start) == Exit ==> x == start)
    && (forall r :: IsRoute(maze, start, r) ==> c <= |r|)
  }

  /**
   * While no exit has been popped and every frontier cost is at least `bound`,
   * the first cells of any route are already settled at no more than their
   * distance from the start.
   */
  lemma {:induction false} RouteSettles(maze: Maze, start: Posn, nodes: Grid<Node>, heap: seq<HeapEntry>,
                                         r: seq<Posn>, bound: int, i: int)
    requires Rectangular(maze) && Closed(maze, nodes, heap) && HeapFloor(heap, bound)
    requires SettledAt(nodes, start, 0) && IsRoute(maze, start, r)
    requires 0 <= i < |r| && i + 1 < bound
    ensures Settled(nodes, r[i]) && CostOf(nodes, r[i]) <= i + 1
    decreases i
  {
    var q := if i == 0 then start else r[i - 1];
    if i > 0 {
      RouteSettles(maze, start, nodes, heap, r, bound, i - 1);
    }
    NeighbourSettles(maze, nodes, heap, q, r[i], bound);
  }

  /**
   * An open neighbour of a settled cell is itself settled, at most one dearer,
   * when every frontier cost is beyond that.
   */
  lemma NeighbourSettles(maze: Maze, nodes: Grid<Node>, heap: seq<HeapEntry>, q: Posn, n: Posn, bound: int)
    requires Rectangular(maze) && Closed(maze, nodes, heap) && HeapFloor(heap, bound)
    requires Settled(nodes, q) && CostOf(nodes, q) + 1 < bound
    requires Adjacent(q, n) && InBounds(maze, n) && TileAt(maze, n) != Wall
    ensures Settled(nodes, n) && CostOf(nodes, n) <= CostOf(nodes, q) + 1
  {
    AdjacentHasDirection(q, n);
    var d :| n == Step(q, d);
    assert Covered(nodes, heap, Step(q, d), CostOf(nodes, q) + 1);
  }

  /** While no exit has been popped, no route is shorter than the cheapest frontier cost. */
  lemma NoShortRoute(maze: Maze, start: Posn, s: Search, r: seq<Posn>, bound: int)
    requires Inv(maze, start, s) && s.exit.None?
    requires HeapFloor(s.heap, bound)
    requires IsRoute(maze, start, r)
    ensures bound <= |r|
  {
    if |r| < bound {
      assert Seed(start) !in s.heap;
      RouteSettles(maze, start, s.nodes, s.heap, r, bound, |r| - 1);
    }
  }

  /** The popped entry may be advanced: it is on the map and the start or an open cell. */
  lemma PoppedIsAdvanceable(maze: Maze, start: Posn, s: Search, i: int)
    requires Inv(maze, start, s) && s.exit.None? && 0 <= i < |s.heap|
    ensures InBounds(maze, s.heap[i].pos)
    ensures s.heap[i].pos == start || TileAt(maze, s.heap[i].pos) != Wall
  {
    assert EntryOk(maze, start, s.nodes, s.heap[i]);
  }

  /**
   * Popped costs never decrease: after any turn that keeps searching, every
   * entry left in the heap costs at least as much as the one just popped.
   */
  lemma PopsNeverDecrease(maze: Maze, start: Posn, s: Search, i: int)
    requires Inv(maze, start, s) && s.exit.None? && IsTop(s.heap, i)
    requires InBounds(maze, s.heap[i].pos) && (s.heap[i].pos == start || TileAt(maze, s.heap[i].pos) != Wall)
    ensures HeapFloor(Advance(maze, start, s, i).heap, s.heap[i].cost)
  {
    TopIsCheapest(s.heap, i);
  }

  /** Popping an Exit ends the search with the exit recorded; its cost bounds every route from below. */
  lemma ExitPopped(maze: Maze, start: Posn, s: Search, i: int)
    requires Inv(maze, start, s) && s.exit.None? && IsTop(s.heap, i)
    requires InBounds(maze, s.heap[i].pos) && TileAt(maze, s.heap[i].pos) == Exit
    ensures var r := Advance(maze, start, s, i);
      && Inv(maze, start, r) && r.exit == Some(s.heap[i].pos)
      && ExitOk(maze, start, r, s.heap[i].cost)
      && Unsettled(r.nodes) == Unsettled(s.nodes) && |r.heap| < |s.heap|
  {
    var e := s.heap[i];
    var node := Get(s.nodes, e.pos);
    var r := Advance(maze, start, s, i);
    assert EntryOk(maze, start, s.nodes, e);
    assert r.nodes == Set(s.nodes, e.pos, node.(from := e.from));
    MarkKeepsNodes(maze, start, s.nodes, e.pos, e.from);
    if e.pos == start || TileAt(maze, start) == Exit {
      assert !SettledAt(s.nodes, start, 0);
      assert s.heap == [Seed(start)];
      assert e == Seed(start);
    }
    TopBeatsRoutes(maze, start, s, i);
  }

  /** Recording a back pointer on an Exit cell, which is never settled, keeps every settled node well formed. */
  lemma MarkKeepsNodes(maze: Maze, start: Posn, nodes: Grid<Node>, pos: Posn, from: Direction)
    requires Rectangular(maze) && NodesOk(maze, start, nodes)
    requires InBounds(maze, pos) && Contains(nodes.cells, pos) && TileAt(maze, pos) == Exit
    ensures var after := Set(nodes, pos, Get(nodes, pos).(from := from));
      && NodesOk(maze, start, after)
      && (forall q :: Contains(after.cells, q) <==> Contains(nodes.cells, q))
      && Unsettled(after) == Unsettled(nodes)
  {
    var after := Set(nodes, pos, Get(nodes, pos).(from := from));
    assert !Settled(nodes, pos);
    UnsettledAfterSet(nodes, pos, Get(nodes, pos).(from := from));
    UnsettledMembers(nodes, pos);
    forall p | InBounds(maze, p) && Settled(after, p) ensures NodeOk(maze, start, after, p) {
      assert p != pos;
      assert NodeOk(maze, start, nodes, p);
    }
  }

  /** The cost of the cheapest frontier entry bounds the length of every route from below. */
  lemma TopBeatsRoutes(maze: Maze, start: Posn, s: Search, i: int)
    requires Inv(maze, start, s) && s.exit.None? && IsTop(s.heap, i)
    ensures forall route :: IsRoute(maze, start, route) ==> s.heap[i].cost <= |route|
  {
    forall route | IsRoute(maze, start, route) ensures s.heap[i].cost <= |route| {
      TopIsCheapest(s.heap, i);
      NoShortRoute(maze, start, s, route, s.heap[i].cost);
    }
  }

  /** Popping an entry no cheaper than its cell's settled cost discards it and changes nothing else. */
  lemma StalePopped(maze: Maze, start: Posn, s: Search, i: int)
    requires Inv(maze, start, s) && s.exit.None? && IsTop(s.heap, i)
    requires InBounds(maze, s.heap[i].pos) && TileAt(maze, s.heap[i].pos) != Exit
    requires s.heap[i].pos == start || TileAt(maze, s.heap[i].pos) != Wall
    requires Settled(s.nodes, s.heap[i].pos) && CostOf(s.nodes, s.heap[i].pos) <= s.heap[i].cost
    ensures var r := Advance(maze, start, s, i);
      && Inv(maze, start, r) && r.exit.None?
      && r.nodes == s.nodes && |r.heap| < |s.heap|
  {
    var e := s.heap[i];
    var r := Advance(maze, start, s, i);
    assert r.heap == RemoveAt(s.heap, i);
    forall p, d | Settled(r.nodes, p) && InBounds(maze, Step(p, d)) && TileAt(maze, Step(p, d)) != Wall
      ensures Covered(r.nodes, r.heap, Step(p, d), CostOf(r.nodes, p) + 1)
    {
      var n := Step(p, d);
      var b := CostOf(s.nodes, p) + 1;
      assert Covered(s.nodes, s.heap, n, b);
      if !(Settled(s.nodes, n) && CostOf(s.nodes, n) <= b) {
        var e' :| e' in s.heap && e'.pos == n && e'.cost <= b;
        if e' != e {
          assert e' in r.heap;
        }
      }
    }
  }

  /** Settling an unsettled cell leaves every other cell's node as it was. */
  lemma SettleFrame(nodes: Grid<Node>, pos: Posn, x: Node)
    requires Contains(nodes.cells, pos) && !Settled(nodes, pos) && x.cost.Some?
    ensures var after := Set(nodes, pos, x);
      && SettledAt(after, pos, x.cost.value)
      && Get(after, pos).from == x.from
      && (forall q :: Settled(nodes, q) ==>
            Settled(after, q) && CostOf(after, q) == CostOf(nodes, q) && Back(after, q) == Back(nodes, q))
      && (forall q :: Settled(after, q) && q != pos ==> Settled(nodes, q))
  {
  }

  /** Settling `pos` at a cost its entry justifies keeps every settled node well formed. */
  lemma SettleKeepsNodes(maze: Maze, start: Posn, nodes: Grid<Node>, e: HeapEntry)
    requires Rectangular(maze) && Shaped(maze, nodes) && NodesOk(maze, start, nodes)
    requires EntryOk(maze, start, nodes, e) && !Settled(nodes, e.pos) && TileAt(maze, e.pos) != Exit
    requires e.pos == start ==> e.cost == 0
    ensures NodesOk(maze, start, Set(nodes, e.pos, Node(Some(e.cost), e.from)))
  {
    var after := Set(nodes, e.pos, Node(Some(e.cost), e.from));
    SettleFrame(nodes, e.pos, Node(Some(e.cost), e.from));
    forall p | InBounds(maze, p) && Settled(after, p) ensures NodeOk(maze, start, after, p) {
      if p != e.pos {
        assert NodeOk(maze, start, nodes, p);
      }
    }
  }

  /** After settling `pos` at `c`, the remaining entries and the new pushes are all well formed. */
  lemma SettleKeepsEntries(maze: Maze, start: Posn, nodes: Grid<Node>, rest: seq<HeapEntry>, pos: Posn, c: int, from: Direction)
    requires Searchable(maze, start) && Shaped(maze, nodes)
    requires InBounds(maze, pos) && Expandable(maze, start, pos) && !Settled(nodes, pos) && c >= 0
    requires forall x :: x in rest ==> EntryOk(maze, start, nodes, x)
    ensures var after := Set(nodes, pos, Node(Some(c), from));
      forall x :: x in rest + Pushes(maze, pos, c, All) ==> EntryOk(maze, start, after, x)
  {
    var after := Set(nodes, pos, Node(Some(c), from));
    SettleFrame(nodes, pos, Node(Some(c), from));
    var pushed := Pushes(maze, pos, c, All);
    forall x | x in rest + pushed ensures EntryOk(maze, start, after, x) {
      if x in rest {
        assert EntryOk(maze, start, nodes, x);
      }
    }
  }

  /** Settling the cheapest entry's cell keeps every settled cost at or below the frontier. */
  lemma SettleKeepsFloor(maze: Maze, nodes: Grid<Node>, heap: seq<HeapEntry>, i: int, from: Direction)
    requires Rectangular(maze) && IsTop(heap, i) && Contains(nodes.cells, heap[i].pos)
    requires !Settled(nodes, heap[i].pos) && BelowHeap(nodes, heap)
    requires forall d :: d in All ==> InBounds(maze, Step(heap[i].pos, d))
    ensures BelowHeap(Set(nodes, heap[i].pos, Node(Some(heap[i].cost), from)),
                      RemoveAt(heap, i) + Pushes(maze, heap[i].pos, heap[i].cost, All))
  {
    var e := heap[i];
    var after := Set(nodes, e.pos, Node(Some(e.cost), from));
    var next := RemoveAt(heap, i) + Pushes(maze, e.pos, e.cost, All);
    SettleFrame(nodes, e.pos, Node(Some(e.cost), from));
    TopIsCheapest(heap, i);
    forall p | Settled(after, p) ensures HeapFloor(next, CostOf(after, p)) {
      if p != e.pos {
        assert HeapFloor(heap, CostOf(nodes, p));
        assert CostOf(nodes, p) <= e.cost;
      }
    }
  }

  /** Settling the popped cell and pushing its open neighbours keeps every settled cell's neighbours covered. */
  lemma SettleKeepsClosed(maze: Maze, nodes: Grid<Node>, heap: seq<HeapEntry>, i: int, from: Direction)
    requires Rectangular(maze) && 0 <= i < |heap| && Contains(nodes.cells, heap[i].pos)
    requires !Settled(nodes, heap[i].pos) && Closed(maze, nodes, heap)
    requires forall d :: d in All ==> InBounds(maze, Step(heap[i].pos, d))
    ensures Closed(maze, Set(nodes, heap[i].pos, Node(Some(heap[i].cost), from)),
                   RemoveAt(heap, i) + Pushes(maze, heap[i].pos, heap[i].cost, All))
  {
    var e := heap[i];
    var pushed := Pushes(maze, e.pos, e.cost, All);
    var after := Set(nodes, e.pos, Node(Some(e.cost), from));
    var next := RemoveAt(heap, i) + pushed;
    SettleFrame(nodes, e.pos, Node(Some(e.cost), from));
    forall p, d | Settled(after, p) && InBounds(maze, Step(p, d)) && TileAt(maze, Step(p, d)) != Wall
      ensures Covered(after, next, Step(p, d), CostOf(after, p) + 1)
    {
      var n := Step(p, d);
      if p == e.pos {
        AllDirections();
        assert HeapEntry(e.cost + 1, n, Flip(d)) in pushed;
        assert HeapEntry(e.cost + 1, n, Flip(d)) in next;
      } else {
        var b := CostOf(nodes, p) + 1;
        assert Covered(nodes, heap, n, b);
        if !(Settled(nodes, n) && CostOf(nodes, n) <= b) {
          var e' :| e' in heap && e'.pos == n && e'.cost <= b;
          if e' != e {
            assert e' in next;
          }
        }
      }
    }
  }

  /**
   * Popping an entry for a cell that is not yet settled settles it at the
   * popped cost and pushes its open neighbours one step dearer.
   */
  lemma FreshPopped(maze: Maze, start: Posn, s: Search, i: int)
    requires Inv(maze, start, s) && s.exit.None? && IsTop(s.heap, i)
    requires InBounds(maze, s.heap[i].pos) && TileAt(maze, s.heap[i].pos) != Exit
    requires s.heap[i].pos == start || TileAt(maze, s.heap[i].pos) != Wall
    requires !(Settled(s.nodes, s.heap[i].pos) && CostOf(s.nodes, s.heap[i].pos) <= s.heap[i].cost)
    ensures !Settled(s.nodes, s.heap[i].pos)
    ensures var r := Advance(maze, start, s, i);
      && Inv(maze, start, r) && r.exit.None?
      && |Unsettled(r.nodes)| < |Unsettled(s.nodes)|
  {
    var e := s.heap[i];
    var rest := RemoveAt(s.heap, i);
    var nodes := Set(s.nodes, e.pos, Node(Some(e.cost), e.from));
    var r := Advance(maze, start, s, i);
    assert r == Search(nodes, rest + Pushes(maze, e.pos, e.cost, All), None);
    TopIsCheapest(s.heap, i);
    assert EntryOk(maze, start, s.nodes, e);
    assert HeapFloor(s.heap, e.cost);
    assert !Settled(s.nodes, e.pos);
    if e.pos == start {
      assert s.heap == [Seed(start)];
    }
    SettleFrame(s.nodes, e.pos, Node(Some(e.cost), e.from));
    SettleKeepsNodes(maze, start, s.nodes, e);
    SettleKeepsEntries(maze, start, s.nodes, rest, e.pos, e.cost, e.from);
    SettleKeepsFloor(maze, s.nodes, s.heap, i, e.from);
    SettleKeepsClosed(maze, s.nodes, s.heap, i, e.from);
    SettleShrinks(maze, s.nodes, e.pos, Node(Some(e.cost), e.from));
    assert SettledAt(nodes, start, 0);
  }

  /** Settling an unsettled cell keeps the grid's shape and leaves one fewer cell unsettled. */
  lemma SettleShrinks(maze: Maze, nodes: Grid<Node>, pos: Posn, x: Node)
    requires Rectangular(maze) && Shaped(maze, nodes)
    requires Contains(nodes.cells, pos) && !Settled(nodes, pos) && x.cost.Some?
    ensures Shaped(maze, Set(nodes, pos, x))
    ensures |Unsettled(Set(nodes, pos, x))| < |Unsettled(nodes)|
  {
    UnsettledAfterSet(nodes, pos, x);
    UnsettledMembers(nodes, pos);
    assert Unsettled(Set(nodes, pos, x)) < Unsettled(nodes);
  }

  /** The search's node grid before any cell is visited: one unsettled node per cell of the maze. */
  function InitialNodes(maze: Maze): (g: Grid<Node>)
    requires Rectangular(maze)
    ensures Shaped(maze, g)
    ensures forall p :: Contains(g.cells, p) ==> Get(g, p) == Node(None, North)
  {
    Grids.New(seq(|maze.tiles|, i requires 0 <= i < |maze.tiles| => seq(|maze.tiles[i]|, j => Node(None, North))))
  }

  /**
   * Follows the back pointers from the exit to the start, collecting the cells
   * passed (the start excluded), and reverses them into a route.
   */
  method Reconstruct(maze: Maze, start: Posn, nodes: Grid<Node>, exit: Posn, ghost exitCost: int)
    returns (path: seq<Posn>)
    requires Rectangular(maze) && Shaped(maze, nodes) && NodesOk(maze, start, nodes)
    requires InBounds(maze, exit) && TileAt(maze, exit) == Exit && exitCost >= 0
    requires exit == start ==> exitCost == 0
    requires exit != start ==> exitCost >= 1 && SettledAt(nodes, Back(nodes, exit), exitCost - 1)
    ensures |path| == exitCost
    ensures path == [] <==> exit == start
    ensures path != [] ==> IsRoute(maze, start, path) && path[|path| - 1] == exit
    ensures start !in path
    ensures forall i :: 0 <= i < |path| - 1 ==> TileAt(maze, path[i]) != Exit
  {
    var cur := exit;
    var trail: seq<Posn> := [];
    ghost var k := exitCost;
    while cur != start
      invariant InBounds(maze, cur) && k >= 0 && |trail| + k == exitCost
      invariant trail == [] ==> cur == exit
      invariant trail != [] ==> TileAt(maze, cur) != Exit && trail[0] == exit && Adjacent(trail[|trail| - 1], cur)
      invariant cur == start ==> k == 0
      invariant cur != start ==> k >= 1 && TileAt(maze, cur) != Wall && SettledAt(nodes, Back(nodes, cur), k - 1)
      invariant TrailOk(maze, start, trail)
      decreases k
    {
      BackStep(maze, start, nodes, cur, k - 1);
      TrailGrows(maze, start, trail, cur);
      trail := trail + [cur];
      cur := Back(nodes, cur);
      k := k - 1;
    }
    if trail != [] {
      TrailReversed(maze, start, trail);
    }
    path := Reverse(trail);
  }

  /** One step back along the pointers: the cell reached is a settled neighbour one cheaper. */
  lemma BackStep(maze: Maze, start: Posn, nodes: Grid<Node>, cur: Posn, k: int)
    requires Rectangular(maze) && Shaped(maze, nodes) && NodesOk(maze, start, nodes)
    requires Contains(nodes.cells, cur) && SettledAt(nodes, Back(nodes, cur), k)
    ensures var q := Back(nodes, cur);
      && InBounds(maze, q) && Adjacent(cur, q) && TileAt(maze, q) != Exit && k >= 0
      && (q == start <==> k == 0)
      && (k >= 1 ==> TileAt(maze, q) != Wall && SettledAt(nodes, Back(nodes, q), k - 1))
  {
    var q := Back(nodes, cur);
    StepIsAdjacent(cur, Get(nodes, cur).from);
    assert InBounds(maze, q);
    assert NodeOk(maze, start, nodes, q);
  }

  /**
   * A trail of cells collected walking back from an exit: none is the start
   * or a Wall, only the first may be an Exit, and each is next to the one after.
   */
  ghost predicate TrailOk(maze: Maze, start: Posn, trail: seq<Posn>)
    requires Rectangular(maze)
  {
    && (forall j :: 0 <= j < |trail| ==>
          trail[j] != start && InBounds(maze, trail[j]) && TileAt(maze, trail[j]) != Wall)
    && (forall j :: 1 <= j < |trail| ==> InBounds(maze, trail[j]) && TileAt(maze, trail[j]) != Exit)
    && (forall j :: 0 <= j < |trail| - 1 ==> Adjacent(trail[j], trail[j + 1]))
  }

  lemma TrailGrows(maze: Maze, start: Posn, trail: seq<Posn>, cur: Posn)
    requires Rectangular(maze) && TrailOk(maze, start, trail)
    requires cur != start && InBounds(maze, cur) && TileAt(maze, cur) != Wall
    requires trail != [] ==> TileAt(maze, cur) != Exit && Adjacent(trail[|trail| - 1], cur)
    ensures TrailOk(maze, start, trail + [cur])
    ensures (trail + [cur])[0] == if trail == [] then cur else trail[0]
  {
  }

  /** Reversing a chain of neighbouring cells gives a chain of neighbouring cells. */
  lemma ReversedChain(trail: seq<Posn>)
    requires forall j :: 0 <= j < |trail| - 1 ==> Adjacent(trail[j], trail[j + 1])
    ensures var path := Reverse(trail); forall i :: 0 <= i < |path| - 1 ==> Adjacent(path[i], path[i + 1])
  {
    var path := Reverse(trail);
    var n := |trail|;
    forall i | 0 <= i < n - 1 ensures Adjacent(path[i], path[i + 1]) {
      assert path[i] == trail[n - 1 - i] && path[i + 1] == trail[n - 2 - i];
      assert Adjacent(trail[n - 2 - i], trail[n - 1 - i]);
    }
  }

  /** A trail collected from an exit back to a neighbour of the start, reversed, is a route. */
  lemma TrailReversed(maze: Maze, start: Posn, trail: seq<Posn>)
    requires Rectangular(maze) && |trail| > 0 && TrailOk(maze, start, trail)
    requires Adjacent(trail[|trail| - 1], start) && InBounds(maze, trail[0]) && TileAt(maze, trail[0]) == Exit
    ensures var path := Reverse(trail);
      && IsRoute(maze, start, path) && path[|path| - 1] == trail[0] && start !in path
      && forall i :: 0 <= i < |path| - 1 ==> TileAt(maze, path[i]) != Exit
  {
    var path := Reverse(trail);
    var n := |trail|;
    ReversedChain(trail);
    forall i | 0 <= i < n
      ensures path[i] != start && InBounds(maze, path[i]) && TileAt(maze, path[i]) != Wall
      ensures i < n - 1 ==> TileAt(maze, path[i]) != Exit
    {
      assert path[i] == trail[n - 1 - i];
    }
    assert path[0] == trail[n - 1];
    assert path[n - 1] == trail[0];
    assert IsRoute(maze, start, path);
  }

  /**
   * `pathfind`: the cells of a shortest route from `start` to an Exit, the start
   * excluded; empty when the start is itself an Exit or no Exit can be reached.
   */
  method Pathfind(maze: Maze, start: Posn) returns (path: seq<Posn>)
    requires Searchable(maze, start)
    ensures path != [] ==> IsRoute(maze, start, path)
    ensures forall r :: IsRoute(maze, start, r) ==> |path| <= |r|
    ensures path == [] <==> TileAt(maze, start) == Exit || forall r :: !IsRoute(maze, start, r)
    ensures start !in path
    ensures forall i :: 0 <= i < |path| - 1 ==> TileAt(maze, path[i]) != Exit
  {
    var nodes := InitialNodes(maze);
    nodes := Set(nodes, start, Get(nodes, start).(cost := None));
    var s := Search(nodes, [Seed(start)], None);
    ghost var exitCost := 0;
    while s.exit.None? && |s.heap| > 0
      invariant Inv(maze, start, s)
      invariant s.exit.Some? ==> ExitOk(maze, start, s, exitCost)
      decreases |Unsettled(s.nodes)|, |s.heap|
    {
      TopExists(s.heap);
      var i :| IsTop(s.heap, i);
      PoppedIsAdvanceable(maze, start, s, i);
      var e := s.heap[i];
      if TileAt(maze, e.pos) == Exit {
        ExitPopped(maze, start, s, i);
        exitCost := e.cost;
      } else if Settled(s.nodes, e.pos) && CostOf(s.nodes, e.pos) <= e.cost {
        StalePopped(maze, start, s, i);
      } else {
        FreshPopped(maze, start, s, i);
      }
      s := Advance(maze, start, s, i);
    }
    if s.exit.None? {
      forall r ensures !IsRoute(maze, start, r) {
        if IsRoute(maze, start, r) {
          NoShortRoute(maze, start, s, r, |r| + 1);
        }
      }
      return [];
    }
    path := Reconstruct(maze, start, s.nodes, s.exit.value, exitCost);
  }
}

=== FILE: posn.dfy ===
/** Signed grid coordinates and their vector addition (src/posn.rs). */
module Posns {

  /** A cell coordinate: `row` grows downwards, `col` grows to the right. */
  datatype Posn = Posn(row: int, col: int)

  /** `Posn + Posn`: componentwise addition. */
  function Add(a: Posn, b: Posn): Posn {
    Posn(a.row + b.row, a.col + b.col)
  }

  /** `Posn + (drow, dcol)`: addition of a raw offset pair. */
  function AddPair(a: Posn, delta: (int, int)): Posn {
    Posn(a.row + delta.0, a.col + delta.1)
  }

  /** Adding a raw pair is the same as adding the position built from it. */
  lemma AddPairIsAdd(a: Posn, dr: int, dc: int)
    ensures AddPair(a, (dr, dc)) == Add(a, Posn(dr, dc))
    ensures AddPair(a, (dr, dc)).row == a.row + dr && AddPair(a, (dr, dc)).col == a.col + dc
  {
  }

  /** Position addition is commutative and associative, with the origin as identity. */
  lemma AddIsCommutativeMonoid(a: Posn, b: Posn, c: Posn)
    ensures Add(a, b) == Add(b, a)
    ensures Add(Add(a, b), c) == Add(a, Add(b, c))
    ensures Add(a, Posn(0, 0)) == a && Add(Posn(0, 0), a) == a
  {
  }

  /** The three sums checked by the source's own unit test. */
  lemma AddExamples()
    ensures Add(Posn(1, 1), Posn(-1, 0)) == Posn(0, 1)
    ensures AddPair(Posn(0, 1), (1, -1)) == Posn(1, 0)
    ensures Add(Posn(0, 1), Posn(1, 1)) == Posn(1, 2)
  {
  }
}

=== FILE: tile.dfy ===
/** The three kinds of maze cell and how each is drawn (src/tile.rs). */
module Tiles {
  import opened Wrappers

  datatype Tile = Floor | Wall | Exit

  /** The terminal colour a glyph is painted in. */
  datatype Colour = Plain | Red | Blue

  /** A glyph together with the colour it is painted in. */
  datatype Painted = Painted(colour: Colour, glyph: char)

  /** `coloured`: how a tile is drawn, both when the maze is printed and when one cell is redrawn. */
  function Coloured(t: Tile): Painted {
    match t
    case Floor => Painted(Plain, ' ')
    case Wall => Painted(Red, '#')
    case Exit => Painted(Blue, 'X')
  }

  /** Tile's own `Display`; the maze itself is printed, and redrawn, with `coloured`. */
  function Displayed(t: Tile): Painted {
    match t
    case Floor => Painted(Red, ' ')
    case Wall => Painted(Red, '#')
    case Exit => Painted(Blue, 'X')
  }

  /** The character a tile is drawn and stored as. */
  function Glyph(t: Tile): char {
    Coloured(t).glyph
  }

  /** The loader's character table; any other character is rejected. */
  function Decode(c: char): Option<Tile> {
    match c
    case '#' => Some(Wall)
    case ' ' => Some(Floor)
    case 'X' => Some(Exit)
    case _ => None
  }

  /** There are exactly three tiles, drawn as ' ', '#' and 'X'. */
  lemma GlyphTable()
    ensures forall t: Tile :: Glyph(t) in {' ', '#', 'X'}
    ensures Glyph(Floor) == ' ' && Glyph(Wall) == '#' && Glyph(Exit) == 'X'
  {
  }

  /** Both renderings draw the same glyph; only the colour of Floor differs. */
  lemma DisplayMatchesColoured(t: Tile)
    ensures Displayed(t).glyph == Coloured(t).glyph
    ensures Displayed(t).colour != Coloured(t).colour <==> t == Floor
  {
  }

  /** Decoding a tile's glyph gives the tile back, and a decoded character is that tile's glyph. */
  lemma DecodeGlyph(t: Tile, c: char)
    ensures Decode(Glyph(t)) == Some(t)
    ensures Decode(c) == Some(t) <==> c == Glyph(t)
  {
  }

  /** Distinct tiles have distinct glyphs. */
  lemma GlyphInjective(s: Tile, t: Tile)
    ensures Glyph(s) == Glyph(t) ==> s == t
  {
  }
}

=== FILE: troll.dfy ===
/** Troll records and their three behaviour states (src/troll.rs). */
module Trolls {
  import opened Directions

  /** `Stunned(n)` counts the ticks left before the troll wanders again. */
  datatype State = Wandering | Charging | Stunned(ticks: int)

  /** A troll faces `dir`; a dead troll stays on the map but never acts. */
  datatype Troll = Troll(dir: Direction, alive: bool, state: State)

  /** `Troll::new`: a live troll facing `dir`, starting out wandering. */
  function New(dir: Direction): (t: Troll)
    ensures t.alive && t.state == Wandering && t.dir == dir
  {
    Troll(dir, true, Wandering)
  }
}

=== FILE: troll_update.dfy ===
/** One tick of a troll's behaviour: `Troll::update` (src/troll.rs). */
module TrollMoves {
  import opened Wrappers
  import opened Posns
  import opened Directions
  import opened Tiles
  import opened Grids
  import opened Trolls
  import opened Mazes

  /**
   * A request to run the maze's wall push at `at` in direction `dir`. The push
   * itself is not part of this model; the caller is expected to perform it.
   */
  datatype PushRequest = PushRequest(at: Posn, dir: Direction)

  /** The troll after the tick, where it stands, whether it caught the player, and any push it requests. */
  datatype Outcome = Outcome(troll: Troll, pos: Posn, captured: bool, push: Option<PushRequest>)

  /** Cells left along direction `d` before `p` leaves the map; shrinks with each in-bounds step. */
  function Reach(m: Maze, p: Posn, d: Direction): nat
    requires |m.tiles| > 0
  {
    var n := match d
      case North => p.row + 1
      case South => |m.tiles| - p.row
      case East => |m.tiles[0]| - p.col
      case West => p.col + 1;
    if n < 0 then 0 else n
  }

  /**
   * The forward probe of a wandering troll: looks along `d` from `from`, one cell
   * at a time, and reports whether `player` is met before a non-Floor tile or the
   * edge of the map.
   */
  function Probe(m: Maze, from: Posn, d: Direction, player: Posn): bool
    requires Rectangular(m)
    decreases Reach(m, from, d)
  {
    var next := Step(from, d);
    if !InBounds(m, next) then false
    else if next == player then true
    else if TileAt(m, next) != Floor then false
    else Probe(m, next, d, player)
  }

  /** The cell `k` steps from `p` along `d`. */
  function Ray(p: Posn, d: Direction, k: nat): Posn
    decreases k
  {
    if k == 0 then p else Ray(Step(p, d), d, k - 1)
  }

  /** The cells 1 .. k-1 along the ray from `p` are in bounds and Floor. */
  predicate ClearBefore(m: Maze, p: Posn, d: Direction, k: nat)
    requires Rectangular(m)
  {
    forall j :: 1 <= j < k ==> InBounds(m, Ray(p, d, j)) && TileAt(m, Ray(p, d, j)) == Floor
  }

  /** `player` stands on the ray from `p` along `d`, in bounds, with only Floor cells between. */
  ghost predicate Sees(m: Maze, p: Posn, d: Direction, player: Posn)
    requires Rectangular(m)
  {
    exists k: nat :: 1 <= k && Ray(p, d, k) == player && InBounds(m, player) && ClearBefore(m, p, d, k)
  }

  /** The step the troll attempts this tick stays on the map; the program panics otherwise. */
  predicate StepStaysOnMap(t: Troll, pos: Posn, m: Maze, draw: Direction)
    requires |m.tiles| > 0
  {
    t.alive ==>
      (t.state == Wandering && draw == t.dir ==> InBounds(m, Step(pos, t.dir))) &&
      (t.state == Charging ==> InBounds(m, Step(pos, t.dir)))
  }

  /** The state the forward probe chooses: Charging exactly when the player is in sight. */
  function ProbeState(m: Maze, from: Posn, d: Direction, player: Posn): (s: State)
    requires Rectangular(m)
    ensures s == Charging || s == Wandering
    ensures s == Charging <==> Sees(m, from, d, player)
  {
    ProbeSees(m, from, d, player);
    if Probe(m, from, d, player) then Charging else Wandering
  }

  /**
   * `Troll::update` for one tick. `draw` is the direction drawn from the random
   * source at the start of a wandering tick.
   */
  function Update(t: Troll, pos: Posn, m: Maze, player: Posn, draw: Direction): (r: Outcome)
    requires Rectangular(m)
    requires StepStaysOnMap(t, pos, m, draw)
    ensures r.troll.alive == t.alive
    ensures r.push.Some? ==> r.push == Some(PushRequest(Step(pos, t.dir), t.dir))
    ensures r.captured ==> r.pos == player && r.troll == t
    ensures r.pos == pos || r.pos == Step(pos, t.dir)
  {
    if !t.alive then Outcome(t, pos, false, None)
    else
      match t.state
      case Wandering =>
        if t.dir == draw then
          var next := Step(pos, draw);
          if next == player then Outcome(t, next, true, None)
          else
            var here := if TileAt(m, next) == Floor then next else pos;
            Outcome(t.(state := ProbeState(m, here, draw, player)), here, false, None)
        else
          Outcome(t.(dir := draw, state := ProbeState(m, pos, draw, player)), pos, false, None)
      case Charging =>
        var next := Step(pos, t.dir);
        if next == player then Outcome(t, next, true, None)
        else
          (match TileAt(m, next)
           case Floor => Outcome(t, next, false, None)
           case Wall => Outcome(t.(state := Stunned(3)), pos, false, Some(PushRequest(next, t.dir)))
           case Exit => Outcome(t.(state := Wandering), pos, false, None))
      case Stunned(n) =>
        Outcome(t.(state := if n - 1 == 0 then Wandering else Stunned(n - 1)), pos, false, None)
  }

  /** Sight along a ray, one cell at a time: the next cell is the player, or is Floor and the player is in sight from it. */
  lemma SeesOneStep(m: Maze, from: Posn, d: Direction, player: Posn)
    requires Rectangular(m)
    ensures var next := Step(from, d);
      Sees(m, from, d, player) <==>
        InBounds(m, next) && (next == player || (TileAt(m, next) == Floor && Sees(m, next, d, player)))
  {
    var next := Step(from, d);
    if Sees(m, from, d, player) {
      var k: nat :| 1 <= k && Ray(from, d, k) == player && InBounds(m, player) && ClearBefore(m, from, d, k);
      if k > 1 {
        assert Ray(from, d, 1) == next;
        if next != player {
          forall j | 1 <= j < k - 1
            ensures InBounds(m, Ray(next, d, j)) && TileAt(m, Ray(next, d, j)) == Floor
          {
            assert Ray(from, d, j + 1) == Ray(next, d, j);
          }
          assert Ray(next, d, k - 1) == player;
          assert ClearBefore(m, next, d, k - 1);
        }
      }
    }
    if InBounds(m, next) {
      if next == player {
        assert Ray(from, d, 1) == player && ClearBefore(m, from, d, 1);
      } else if TileAt(m, next) == Floor && Sees(m, next, d, player) {
        var k: nat :| 1 <= k && Ray(next, d, k) == player && InBounds(m, player) && ClearBefore(m, next, d, k);
        assert Ray(from, d, k + 1) == player;
        forall j | 1 <= j < k + 1
          ensures InBounds(m, Ray(from, d, j)) && TileAt(m, Ray(from, d, j)) == Floor
        {
          if j > 1 {
            assert Ray(from, d, j) == Ray(next, d, j - 1);
          }
        }
        assert ClearBefore(m, from, d, k + 1);
      }
    }
  }

  /** The probe finds the player exactly when the player is in sight along the ray. */
  lemma {:induction false} ProbeSees(m: Maze, from: Posn, d: Direction, player: Posn)
    requires Rectangular(m)
    ensures Probe(m, from, d, player) <==> Sees(m, from, d, player)
    decreases Reach(m, from, d)
  {
    var next := Step(from, d);
    SeesOneStep(m, from, d, player);
    if InBounds(m, next) && next != player && TileAt(m, next) == Floor {
      ProbeSees(m, next, d, player);
    }
  }

  /** A dead troll does nothing: same troll, same place, no capture, no push. */
  lemma DeadTrollIsInert(t: Troll, pos: Posn, m: Maze, player: Posn, draw: Direction)
    requires Rectangular(m) && !t.alive
    ensures Update(t, pos, m, player, draw) == Outcome(t, pos, false, None)
  {
  }

  /** A stunned troll stays put and counts down; its last stunned tick returns it to wandering. */
  lemma StunnedCountsDown(t: Troll, pos: Posn, m: Maze, player: Posn, draw: Direction, n: int)
    requires Rectangular(m) && t.alive && t.state == Stunned(n)
    ensures var r := Update(t, pos, m, player, draw);
      && r.pos == pos && !r.captured && r.push.None? && r.troll.dir == t.dir
      && (n == 1 ==> r.troll.state == Wandering)
      && (n > 1 ==> r.troll.state == Stunned(n - 1))
  {
  }

  /** A charge onto the player's cell catches the player there, leaving the troll as it was. */
  lemma ChargeCatchesPlayer(t: Troll, pos: Posn, m: Maze, draw: Direction)
    requires Rectangular(m) && t.alive && t.state == Charging
    requires InBounds(m, Step(pos, t.dir))
    ensures Update(t, pos, m, Step(pos, t.dir), draw) == Outcome(t, Step(pos, t.dir), true, None)
  {
  }

  /** Charging elsewhere: one step onto Floor, stunned with a push request at a Wall, calmed at the Exit. */
  lemma ChargeOutcomes(t: Troll, pos: Posn, m: Maze, player: Posn, draw: Direction)
    requires Rectangular(m) && t.alive && t.state == Charging
    requires InBounds(m, Step(pos, t.dir)) && Step(pos, t.dir) != player
    ensures var next := Step(pos, t.dir);
      var r := Update(t, pos, m, player, draw);
      && !r.captured && r.troll.dir == t.dir
      && (TileAt(m, next) == Floor ==> r.pos == next && r.troll.state == Charging && r.push.None?)
      && (TileAt(m, next) == Wall ==>
            r.pos == pos && r.troll.state == Stunned(3) && r.push == Some(PushRequest(next, t.dir)))
      && (TileAt(m, next) == Exit ==> r.pos == pos && r.troll.state == Wandering && r.push.None?)
  {
  }

  /** A wandering troll that draws a new heading only turns to face it. */
  lemma WanderTurns(t: Troll, pos: Posn, m: Maze, player: Posn, draw: Direction)
    requires Rectangular(m) && t.alive && t.state == Wandering && draw != t.dir
    ensures var r := Update(t, pos, m, player, draw);
      r.pos == pos && !r.captured && r.push.None? && r.troll.dir == draw
  {
  }

  /** A wandering troll that draws its own heading steps forward onto Floor, catches a player ahead, or stays. */
  lemma WanderSteps(t: Troll, pos: Posn, m: Maze, player: Posn)
    requires Rectangular(m) && t.alive && t.state == Wandering
    requires InBounds(m, Step(pos, t.dir))
    ensures var next := Step(pos, t.dir);
      var r := Update(t, pos, m, player, t.dir);
      && r.push.None? && r.troll.dir == t.dir
      && (next == player ==> r == Outcome(t, next, true, None))
      && (next != player ==> !r.captured && (r.pos == next <==> TileAt(m, next) == Floor))
  {
  }

  /**
   * A wandering troll that does not catch the player ends the tick charging
   * exactly when the player is in sight ahead of its new position.
   */
  lemma WanderChargesIffSees(t: Troll, pos: Posn, m: Maze, player: Posn, draw: Direction)
    requires Rectangular(m) && t.alive && t.state == Wandering
    requires StepStaysOnMap(t, pos, m, draw)
    ensures var r := Update(t, pos, m, player, draw);
      !r.captured ==>
        && r.troll.dir == draw
        && (r.troll.state == Charging || r.troll.state == Wandering)
        && (r.troll.state == Charging <==> Sees(m, r.pos, draw, player))
  {
    var r := Update(t, pos, m, player, draw);
    ProbeSees(m, r.pos, draw, player);
  }
}

=== FILE: wrappers.dfy ===
/** Optional values and fallible results, used where the program returns `Option` or fails. */
module Wrappers {

  /** A value that may be absent, as Rust's `Option`. */
  datatype Option<+T> = None | Some(value: T)

  /** Either a computed value or an error describing why it could not be computed. */
  datatype Result<+T, +E> = Ok(value: T) | Err(error: E)
}
